=== FILE: README.md ===
# hfsh2 command engine, modelled in Dafny

hfsh2 is a small Unix shell. For each tokenized input line it does the following:
- it classifies the line by its `>` and `&` tokens;
- it splits a parallel group `c1 & c2 & ... & cn` into child commands, each run in a forked child that the shell waits for, and a last command that the shell runs itself;
- it validates and applies an output redirection `cmd > file` or `cmd 2 > file`;
- it runs the resulting command, either as one of the built-ins `cd`, `path` or `exit`, or as a program found by searching the directories of the search path in order.

This project models that engine as pure functions over token sequences (`seq<string>`). Every system call becomes data:
- forks, waits, execs, descriptor swaps and crashes are `Engine.Action` values in a trace;
- the standard streams and the saved descriptors are fields of `Engine.Shell`;
- the file system is the `Engine.Env` parameter: executability of a candidate file and whether a file can be created, each as seen from a working directory; where `chdir` leads; and whether `fork` succeeds.

Modules, one file each:
- `Wrappers` (`wrappers.dfy`): the `Option` type.
- `Tokens` (`tokens.dfy`): tokens, the three marker strings and occurrence counting.
- `SearchPath` (`search_path.dfy`): the search path and first-match resolution, as a function and as hfsh2's loop.
- `Redirection` (`redirection.dfy`): the redirection validator and its inverse rendering.
- `Parallel` (`parallel.dfy`): splitting on `&`, as a partition with its inverse, and hfsh2's scan.
- `Builtins` (`builtins.dfy`): the built-in dispatcher.
- `Engine` (`engine.dfy`): line classification, the per-command plan, the per-line plan and a run over many lines.
- `EngineProperties` (`engine_properties.dfy`): whole-line consequences.

## Behaviour as the code has it

The model follows the code in these surprising behaviours (what it leaves out is listed under "Left out"):
- **Stale token count.** The token count of the whole line is computed once and handed to the built-ins for every command the line yields. This includes the shortened command after a redirection and each segment of a parallel group. So `exit &` reports an error instead of exiting, `cd d > f` reports an error, and `path d > f` reads past the command's end. The last case is modelled as the crash `Fault`.
- **Empty segments.** Empty segments of a parallel group are not skipped. A leading `&` gives a child with no command, and `& &` leaves the shell itself with none. Both read a null token, which is modelled as `Fault`.
- **Sticky redirect flag.** The redirect flag is never cleared. After the first line containing `>`, every later non-empty line other than a lone `&` goes through the redirection validator. When the command validates and runs to completion, both streams are restored afterwards. A malformed line only reports the error, and a command that exits or crashes restores nothing. The saved descriptors start as zero-initialised globals. So if the first `>` line was malformed and saved nothing, the next restore binds stdout and stderr to descriptor 0. The same happens on a line like `a > f & b` when it is the shell's first `>`. The saving and the rebinding happen in the child that runs `a > f`. The flag still applies to the shell's own command `b`, which has no `>`, so the shell's restore after `b` uses the never-assigned saved descriptors and binds both streams to descriptor 0.
- **File creation failure.** A redirection target that cannot be created is not reported. The command still runs, on the streams it already had.
- **End-of-group child.** A parallel line forks one extra child at the end of the group. That child exits at once and the shell does not wait for it (`Sentinel`). The last command then runs in the shell process.
- **Program not found.** A child that finds no program reports the error and exits.

## Model

| member | source | states |
|---|---|---|
| SearchPath.Resolve | hfsh2/hfsh2.cpp:247-259 | no program is found exactly when no directory's `dir/name` is executable; a found program is the candidate of the first executable directory in search-path order |
| SearchPath.FirstMatchUnique | hfsh2/hfsh2.cpp:254-258 | the first executable directory is unique, so the search's answer is determined |
| SearchPath.Search | hfsh2/hfsh2.cpp:247-259 | hfsh2's loop over the directories returns the first executable candidate, or nothing when none is executable, and agrees with `Resolve` |
| SearchPath.LaterDirectoriesIgnored | hfsh2/hfsh2.cpp:247-258 | once a directory matches, appending more directories to the search path changes nothing |
| Redirection.FirstMarker | hfsh2/hfsh2.cpp:462-465 | the position found holds `>` and no earlier token is `>`; nothing is found exactly when there is no `>` |
| Redirection.Parse | hfsh2/hfsh2.cpp:452-498 | it is an error exactly when the line starts with `>`, or nothing follows the first `>`, or more than one token does; without `>` the command is unchanged; otherwise the file is the one token after `>`, the stream is stderr exactly when the token before `>` is `2`, and the command is what precedes the `2` or the `>` |
| Redirection.ParseRender | hfsh2/hfsh2.cpp:462-493 | writing a command with a target and parsing it again gives back that target and command |
| Redirection.RenderParse | hfsh2/hfsh2.cpp:462-493 | a line that parses with a target is exactly its command written with that target |
| Parallel.Segments | hfsh2/hfsh2.cpp:551-597 | the scan always yields at least one segment, the one closed by the end of the line |
| Parallel.JoinSegments | hfsh2/hfsh2.cpp:551-597 | joining the segments with `&` gives back the token sequence |
| Parallel.SegmentsUnmarked | hfsh2/hfsh2.cpp:551-597 | no segment contains `&` |
| Parallel.SegmentsCount | hfsh2/hfsh2.cpp:551-597 | there is one segment more than there are `&` tokens |
| Parallel.SegmentsPartition | hfsh2/hfsh2.cpp:551-597 | the segments partition the sequence at its `&` tokens: the join, marker-freedom and count together |
| Parallel.SegmentsOfUnmarked | hfsh2/hfsh2.cpp:551-597 | a sequence without `&` is a single segment |
| Parallel.SegmentsJoin | hfsh2/hfsh2.cpp:551-597 | the split is unique: any marker-free segments joined with `&` split back into themselves |
| Parallel.Split | hfsh2/hfsh2.cpp:544-599 | after dropping one trailing `&`, the child commands and the last command joined with `&` give back the line, none contains `&`, and there are as many children as remaining `&` tokens |
| Parallel.SplitJoin | hfsh2/hfsh2.cpp:544-599 | splitting the join of marker-free children and a non-empty last command gives back exactly those children and that command |
| Parallel.Scan | hfsh2/hfsh2.cpp:541-599 | hfsh2's left-to-right scan produces the same partition as `Split` |
| Builtins.Dispatch | hfsh2/hfsh2.cpp:299-425 | only `cd`, `path` and `exit` are built-ins; `cd` changes to its argument only with a count of 2 and an argument present, otherwise it reports; `exit` terminates only with a count of 1, otherwise it reports; `path` replaces the search path with tokens 1 up to the count, possibly none, and crashes when the count runs past the command |
| Engine.Start | hfsh2/hfsh2.cpp:52-126 | the shell starts in the given directory with the redirect flag down, output on descriptors 1 and 2, saved descriptors 0 as zero-initialised globals, and programs looked for in `/bin` only |
| Engine.Classify | hfsh2/hfsh2.cpp:152-161 | the redirect flag is up exactly when it was already up or `>` occurs at least once; the parallel flag is up exactly when `&` occurs at least once; the count is the number of tokens |
| Engine.ScanLine | hfsh2/hfsh2.cpp:152-161 | the redirect flag is up exactly when it was already up or some token is `>`; the parallel flag is up exactly when some token is `&`; the count is the number of tokens |
| Engine.Rebind | hfsh2/hfsh2.cpp:476-493 | a redirection saves both streams and rebinds only the chosen one to the file, named relative to the working directory, and only when the file can be created there; the search path and directory are untouched |
| Engine.Execute | hfsh2/hfsh2.cpp:225-278 | built-ins never fork; anything else is one fork, or one report when the fork fails, launched with the whole command on the current streams, in the shell's working directory, with the program resolved from that directory; only `path` changes the search path and only `cd` the directory; the process ends exactly on `exit` with count 1 or on `path` reading past its command |
| Engine.ChildAction | hfsh2/hfsh2.cpp:554-590 | a child exists exactly when its fork succeeded, otherwise the error is reported; the child's trace is exactly what the shell would do with its segment from the shell's state, with the line's count and the redirect flag, so redirection, restore and built-ins included; only that trace survives, not the child's state; an empty segment crashes it; without the flag, a program segment is launched from it on the shell's streams and directory |
| Engine.RunCommand | hfsh2/hfsh2.cpp:171-187 | an empty command crashes; without the redirect flag the command is executed exactly as given and nothing is redirected or restored; a malformed redirection reports and executes nothing; otherwise the redirection comes first, then the shortened command is executed on the rebound streams with the line's count, or the process crashes when no command is left; if the process goes on, the trace ends with a restore, and when there was a target both streams are back |
| Engine.ProcessLine | hfsh2/hfsh2.cpp:152-187 | the redirect flag is raised by `>` and never lowered; an empty line or a lone `&` does nothing; a line without `&` is run as one command under the updated flag, judged by its own length; in a parallel line the children run first, in order, then the end-of-group child is forked, then the last command runs in the shell and determines its state |
| Engine.RunScript | hfsh2/hfsh2.cpp:133-197 | over a sequence of lines, the redirect flag once up stays up, and while the shell runs it is up exactly when it was already up or some line held `>`; no lines do nothing; the first line's trace comes first, and a first line that ends the shell ends the run |
| EngineProperties.RunScriptConcat | hfsh2/hfsh2.cpp:133-197 | running two scripts back to back is running their concatenation: the second starts from the state the first leaves, and never runs if the first ended the shell |
| EngineProperties.PlainLine | hfsh2/hfsh2.cpp:152-187 | a line with neither `>` nor `&` is run as one command judged by its own length |
| EngineProperties.UnredirectedRun | hfsh2/hfsh2.cpp:171-187 | a command without `>` is executed unchanged, and is followed by a restore when the redirect flag is up |
| EngineProperties.RedirectedLine | hfsh2/hfsh2.cpp:171-182 | a line whose redirection parses with a target: redirect, execute the shortened command with the line's count on the rebound streams, then restore |
| EngineProperties.RedirectedLaunch | hfsh2/hfsh2.cpp:171-182 | a redirected program: redirect, launch on the rebound streams, restore, and the saved descriptors are the shell's own streams |
| EngineProperties.RedirectStdoutLine | hfsh2/hfsh2.cpp:489-493 | `cmd > file` launches `cmd` with stdout bound to `file` and stderr unchanged, and the shell's streams are unchanged afterwards |
| EngineProperties.RedirectStderrLine | hfsh2/hfsh2.cpp:484-488 | `cmd 2 > file` launches `cmd` with stderr bound to `file` and stdout unchanged, and the shell's streams are unchanged afterwards |
| EngineProperties.MalformedRedirectRunsNothing | hfsh2/hfsh2.cpp:458-474 | a line whose first `>` starts it, ends it, or is followed by more than one token only reports the error |
| EngineProperties.EmptyPathFindsNothing | hfsh2/hfsh2.cpp:417-425 | after `path` with no arguments the search path is empty and no program is ever found |
| EngineProperties.PathReplacesSearchPath | hfsh2/hfsh2.cpp:306-311 | `path d1 ... dn` makes the search path exactly `d1 ... dn` and forks nothing |
| EngineProperties.CdArity | hfsh2/hfsh2.cpp:345-348 | `cd` with zero or two or more arguments reports and leaves the directory unchanged |
| EngineProperties.CdOneArgument | hfsh2/hfsh2.cpp:345-351 | `cd dir` moves to wherever `chdir` leads, or reports and stays when it fails |
| EngineProperties.CdSeenByLaterLaunch | hfsh2/hfsh2.cpp:235-264 | after a successful `cd dir`, the next program is launched in the new directory and its program is searched for from there, with the search path unchanged |
| EngineProperties.ExitAlone | hfsh2/hfsh2.cpp:312-315 | `exit` alone ends the shell and does nothing else |
| EngineProperties.ExitWithArguments | hfsh2/hfsh2.cpp:312-320 | `exit` with arguments reports and the shell carries on |
| EngineProperties.SplitOfThree | hfsh2/hfsh2.cpp:551-597 | `a & b & c` splits into the children `a` and `b` and the last command `c` |
| EngineProperties.ParallelGroupOfThree | hfsh2/hfsh2.cpp:551-599 | `a & b & c` runs `a`, then `b`, each in a waited-for child, then forks the end-of-group child, then launches `c` from the shell |
| EngineProperties.SplitOfPair | hfsh2/hfsh2.cpp:551-597 | `u & v`, with no `&` inside either and `v` not empty, splits into the one child `u` and the last command `v` |
| EngineProperties.PairLine | hfsh2/hfsh2.cpp:551-599 | on `u & v`, the first action is the child running `u` under the line's flag and count, and the shell ends in the state that running `v` itself leaves |
| EngineProperties.RedirectedProgram | hfsh2/hfsh2.cpp:171-182 | under the redirect flag, `c > f` redirects stdout to `f`, launches `c` on the file with stderr unchanged, restores, and saves the streams it had |
| EngineProperties.RedirectInChildSegment | hfsh2/hfsh2.cpp:168-182 | on `c > f & d` the first child saves the streams, redirects stdout to `f`, launches `c` on the file in the shell's directory and restores, all inside the child |
| EngineProperties.ChildRedirectRestoresShell | hfsh2/hfsh2.cpp:171-181 | after `c > f & d` the shell goes on, with both its streams bound to the descriptors saved before that line, since its own command `d` still ends with the restore |
| EngineProperties.ChildRedirectRestoresZero | hfsh2/hfsh2.cpp:171-181 | when `c > f & d` is the shell's first `>` line, the shell's stdout and stderr end up bound to descriptor 0 |
| EngineProperties.ExitCountedTwo | hfsh2/hfsh2.cpp:312-320 | `exit` judged with a count of two reports, does not terminate, and the shell goes on |
| EngineProperties.ExitInParallelLineReports | hfsh2/hfsh2.cpp:161-186 | `exit &` is judged with the whole line's count of 2, so it reports instead of ending the shell |
| EngineProperties.CdWithRedirectReports | hfsh2/hfsh2.cpp:171-179 | `cd dir > file` is judged with the line's count of 4, so it reports and the directory stays |
| EngineProperties.PathWithRedirectFaults | hfsh2/hfsh2.cpp:417-425 | `path dir > file` copies past the shortened command and crashes the shell |
| EngineProperties.LeadingSeparator | hfsh2/hfsh2.cpp:551-597 | a leading `&` gives a child with an empty command, which crashes while the shell goes on |
| EngineProperties.TwoSeparatorsCrashShell | hfsh2/hfsh2.cpp:544-599 | `& &` leaves the shell itself an empty command, and it crashes |
| EngineProperties.RestoreAfterMalformedFirstRedirect | hfsh2/hfsh2.cpp:171-181 | after a malformed first redirection, the next line restores both streams to descriptor 0 |

## Left out

- The flex tokenizer (`gettoks` and the `yy_*` buffer calls): a foreign C library. Lines are given as token sequences.
- The read loop: interactive and batch mode, the prompt, end of input and the startup argument checks. These are input/output plumbing.
- Child processes leaving the loop after their command is modelled only as the `Subshell` action's trace ending there.
- Real system calls: `fork`, `waitpid`, `execvp`, `dup`/`dup2`, `creat`, `chdir` and `access` are data or `Env` parameters. Exit statuses are not modelled, and neither is reaping of the end-of-group child.
- Engine.Execute: a program that passes the executability check but whose `execvp` then fails is not modelled. The launch is assumed to replace the child.
- Engine.Execute: directories are names only. `Env.chdir` says where a `cd` leads, and `Env.isExecutable` and `Env.canCreate` answer for a name as seen from a working directory; there is no model of the file system behind them.
- Engine.ProcessLine: fork success is one flag per line (`Env.forkOk`), not one per fork. Under `Engine.RunScript` it is one flag per run. After a failed fork in a parallel group, hfsh2 waits on `-1`; the model records only the report.
- Engine.Rebind: the permission bits passed to `creat` are not modelled.
- Engine.Rebind: descriptors are never closed in hfsh2. Each redirection leaves the two saved duplicates and the created file open in the shell, and launched children inherit them. Once the descriptor table is full, both `dup` calls and `creat` return -1. Nothing is rebound, the saved descriptors become -1, and every later restore is a failing `dup2(-1, ...)`. From then on redirections silently stop taking effect, and commands write to the shell's own streams. The model overwrites the saved descriptors and has no descriptor table, so it does not show this leak.
- Engine.RunScript: one `Env` serves the whole run. Fork success, executability and creatability are fixed across lines, so a file created by an earlier `>` or a program installed by an earlier command is not seen by later lines.
- SearchPath.Resolve: the search path is taken to end after its last real entry. In hfsh2, the path array is never terminated by a null pointer: slots past the copied arguments hold uninitialised buffers, and the default path `/bin` sits in a 5-byte local array. The fixed 30-slot arrays, the 8-byte `malloc(sizeof(toks[jj]))` path buffers that `strcpy` overruns, and the 256-byte line and candidate buffers are not modelled either; sequences are unbounded.
- Engine.Start: `init_path` followed by installing `/bin` is modelled as starting with the search path `["/bin"]`. The `path` built-in's fresh allocation followed by the copy is modelled as replacing the search path.

=== FILE: builtins.dfy ===
/** The commands the shell runs in its own process: `cd`, `path` and `exit`.
    Arity is judged against `size`, the token count the caller supplies; the
    shell supplies the count of the whole input line, which can be larger than
    the command once redirection or a parallel split has cut it down. */
module Builtins {
  import opened Tokens

  /** What the dispatcher decided. `Fault` stands for hfsh2 reading the
      command's terminating null pointer as a string (undefined behaviour). */
  datatype Outcome =
    | NotBuiltin
    | CdTo(dir: string)
    | SetPath(dirs: seq<string>)
    | Exit
    | Error
    | Fault

  predicate IsBuiltinName(name: string)
  {
    name == "cd" || name == "path" || name == "exit"
  }

  /** The arguments the `path` built-in copies: tokens 1 up to `size`. */
  function PathArguments(cmd: Command, size: nat): seq<string>
    requires size <= |cmd|
  {
    if size == 0 then [] else cmd[1..size]
  }

  /** Dispatches on the first token of a non-empty command. */
  function Dispatch(cmd: Command, size: nat): (r: Outcome)
    requires |cmd| > 0
    // only the three names are handled here; anything else is launched
    ensures r.NotBuiltin? <==> !IsBuiltinName(cmd[0])
    // cd: exactly one argument by the count, and the argument must be present
    ensures cmd[0] == "cd" ==> (r.CdTo? <==> size == 2 && |cmd| >= 2) && (r.CdTo? || r.Error?)
    ensures r.CdTo? ==> cmd[0] == "cd" && |cmd| >= 2 && r.dir == cmd[1]
    // exit: terminates only with a count of one, otherwise reports and carries on
    ensures cmd[0] == "exit" ==> (r.Exit? <==> size == 1) && (r.Exit? || r.Error?)
    // path: replaces the search path with the counted arguments, possibly none
    ensures cmd[0] == "path" ==> (r.SetPath? <==> size <= |cmd|) && (r.SetPath? || r.Fault?)
    ensures r.SetPath? ==>
      && cmd[0] == "path"
      && |r.dirs| == (if size == 0 then 0 else size - 1)
      && forall k :: 0 <= k < |r.dirs| ==> r.dirs[k] == cmd[k + 1]
  {
    if cmd[0] == "cd" then
      if size != 2 then Error
      else if |cmd| < 2 then Error   // chdir on the null terminator fails
      else CdTo(cmd[1])
    else if cmd[0] == "path" then
      if size <= |cmd| then SetPath(PathArguments(cmd, size))
      else Fault                     // strcpy from the null terminator
    else if cmd[0] == "exit" then
      if size == 1 then Exit else Error
    else NotBuiltin
  }
}

=== FILE: engine.dfy ===
/** Per-line orchestration: classify the line, split a parallel group, apply
    redirection to the command the split hands back, then run it as a built-in
    or as a launched program. Every system call is data here: forks, waits and
    execs are actions in the trace, the standard streams are fields of the
    shell state, and the file system answers through the `Env` parameter. */
module Engine {
  import opened Wrappers
  import opened Tokens
  import SearchPath
  import Redirection
  import Parallel
  import Builtins

  /** What a standard stream of the shell writes to: a descriptor number it inherited
      or duplicated, or a file a redirection created, named by `name` as seen from the
      working directory `dir` of the time. */
  datatype Sink = Inherited(fd: nat) | File(dir: string, name: string)

  /** The state one shell process carries from line to line.
      `savedOut`/`savedErr` are the descriptors a redirection saved for restoring;
      `redirectSticky` is the redirect flag, which no line ever clears. */
  datatype Shell = Shell(
    searchPath: seq<string>,
    cwd: string,
    out: Sink,
    err: Sink,
    savedOut: Sink,
    savedErr: Sink,
    redirectSticky: bool)

  /** The operating system as seen by the shell: which files are executable and
      which can be created, each named as seen from a working directory; where
      `chdir` from a directory to an argument leads (None when it fails); and
      whether process creation succeeds. */
  datatype Env = Env(
    isExecutable: (string, string) -> bool,
    chdir: (string, string) -> Option<string>,
    canCreate: (string, string) -> bool,
    forkOk: bool)

  /** The executability test of a process whose working directory is `dir`. */
  function ExecutableFrom(env: Env, dir: string): string -> bool
  {
    p => env.isExecutable(dir, p)
  }

  /** One observable step of a process, in the order it happens. */
  datatype Action =
    | Report(to: Sink)                      // the fixed error message, written to the current stderr
    | ChangeDir(dir: string)                // a successful chdir
    | Spawn(argv: Command, program: Option<string>, dir: string, out: Sink, err: Sink)
                                            // fork; the child, in directory `dir`, execs `program` with
                                            // `argv`, or reports and exits when none was found; the
                                            // shell waits for it
    | Redirect(stream: Redirection.Stream, file: string)
                                            // save both streams, create `file`, duplicate it onto `stream`
    | Restore                               // duplicate the saved descriptors back onto stdout and stderr
    | Subshell(command: Command, body: seq<Action>)
                                            // fork a child that runs `command` and exits; the shell waits
    | Sentinel                              // fork a child that exits at once; the shell does not wait
    | Terminate                             // the `exit` built-in ends the process
    | Fault                                 // the process reads a null token and crashes

  /** The actions of one process, its state afterwards, and whether it goes on reading lines. */
  datatype Run = Run(actions: seq<Action>, shell: Shell, alive: bool)

  /** What the classification loop of a line records. */
  datatype Flags = Flags(redirect: bool, parallel: bool, size: nat)

  /** The shell as it starts, with the default search path. The saved descriptors are
      those of zero-initialised globals: descriptor 0. */
  function Start(cwd: string): (r: Shell)
    ensures r.cwd == cwd && !r.redirectSticky
    ensures r.out == Inherited(1) && r.err == Inherited(2)
    ensures r.savedOut == Inherited(0) && r.savedErr == Inherited(0)
    // programs are looked for in `/bin` and nowhere else
    ensures forall name, isExecutable :: SearchPath.Resolve(r.searchPath, name, isExecutable) ==
              if isExecutable(SearchPath.Candidate("/bin", name)) then Some(SearchPath.Candidate("/bin", name)) else None
  {
    Shell(SearchPath.DefaultPath, cwd, Inherited(1), Inherited(2), Inherited(0), Inherited(0), false)
  }

  /** The flags of a line, given the redirect flag left by earlier lines. */
  function Classify(sticky: bool, tokens: Command): (r: Flags)
    ensures r.redirect <==> sticky || Occurrences(tokens, RedirectMarker) > 0
    ensures r.parallel <==> Occurrences(tokens, ParallelMarker) > 0
    ensures r.size == |tokens|
  {
    OccurrencesPositive(tokens, RedirectMarker);
    OccurrencesPositive(tokens, ParallelMarker);
    Flags(sticky || RedirectMarker in tokens, ParallelMarker in tokens, |tokens|)
  }

  /** hfsh2's counting loop over the tokens of a line. */
  method ScanLine(sticky: bool, tokens: Command) returns (f: Flags)
    ensures f.redirect <==> sticky || exists i :: 0 <= i < |tokens| && tokens[i] == RedirectMarker
    ensures f.parallel <==> exists i :: 0 <= i < |tokens| && tokens[i] == ParallelMarker
    ensures f.size == |tokens|
    ensures f == Classify(sticky, tokens)
  {
    var redirect := sticky;
    var parallel := false;
    var i := 0;
    while i < |tokens|
      invariant 0 <= i <= |tokens|
      invariant redirect <==> sticky || RedirectMarker in tokens[..i]
      invariant parallel <==> ParallelMarker in tokens[..i]
    {
      assert tokens[..i + 1] == tokens[..i] + [tokens[i]];
      if tokens[i] == RedirectMarker {
        redirect := true;
      }
      if tokens[i] == ParallelMarker {
        parallel := true;
      }
      i := i + 1;
    }
    assert tokens[..i] == tokens;
    f := Flags(redirect, parallel, i);
  }

  /** The shell state once the descriptors saved by a redirection are put back. */
  function Restored(sh: Shell): Shell
  {
    sh.(out := sh.savedOut, err := sh.savedErr)
  }

  /** The effect of a parsed redirection on the descriptors: both streams are saved,
      then the chosen one is rebound to the file if the file could be created. */
  function Rebind(sh: Shell, target: Option<Redirection.Target>, env: Env): (r: Shell)
    ensures r.searchPath == sh.searchPath && r.cwd == sh.cwd && r.redirectSticky == sh.redirectSticky
    ensures target.None? ==> r == sh
    ensures target.Some? ==> r.savedOut == sh.out && r.savedErr == sh.err
    // the file is created, when it can be, relative to the shell's working directory
    ensures target.Some? && env.canCreate(sh.cwd, target.value.file) ==>
      if target.value.stream == Redirection.Stdout
      then r.out == File(sh.cwd, target.value.file) && r.err == sh.err
      else r.err == File(sh.cwd, target.value.file) && r.out == sh.out
    ensures target.Some? && !env.canCreate(sh.cwd, target.value.file) ==> r.out == sh.out && r.err == sh.err
  {
    match target
    case None => sh
    case Some(t) =>
      var saved := sh.(savedOut := sh.out, savedErr := sh.err);
      if !env.canCreate(sh.cwd, t.file) then saved
      else if t.stream == Redirection.Stdout then saved.(out := File(sh.cwd, t.file))
      else saved.(err := File(sh.cwd, t.file))
  }

  /** Runs a non-empty command: a built-in in this process, anything else in a forked
      child that searches the path, while this process waits. */
  function Execute(sh: Shell, cmd: Command, size: nat, env: Env): (r: Run)
    requires |cmd| > 0
    // execution never touches the descriptors or the redirect flag
    ensures r.shell.out == sh.out && r.shell.err == sh.err
    ensures r.shell.savedOut == sh.savedOut && r.shell.savedErr == sh.savedErr
    ensures r.shell.redirectSticky == sh.redirectSticky
    // only `path` changes the search path, only `cd` the working directory
    ensures r.shell.searchPath != sh.searchPath ==> cmd[0] == "path"
    ensures r.shell.cwd != sh.cwd ==> cmd[0] == "cd"
    // built-ins never fork
    ensures Builtins.IsBuiltinName(cmd[0]) ==> forall a :: a in r.actions ==> !a.Spawn?
    // anything else is one fork of the whole command, with the resolved program, on the current streams
    ensures !Builtins.IsBuiltinName(cmd[0]) ==>
      && r.shell == sh && r.alive && |r.actions| == 1
      && (r.actions[0].Spawn? <==> env.forkOk)
      && (!env.forkOk ==> r.actions[0] == Report(sh.err))
    // the child starts in the shell's working directory and searches the path from there
    ensures forall a :: a in r.actions && a.Spawn? ==>
      && a.argv == cmd && a.dir == sh.cwd && a.out == sh.out && a.err == sh.err
      && (a.program.None? <==> SearchPath.NoneExecutable(sh.searchPath, cmd[0], ExecutableFrom(env, sh.cwd)))
      && (a.program.Some? ==> exists i :: SearchPath.FirstMatchAt(sh.searchPath, cmd[0], ExecutableFrom(env, sh.cwd), i)
                                          && a.program.value == SearchPath.Candidate(sh.searchPath[i], cmd[0]))
    // the process ends only on `exit` with a count of one, or on `path` reading past the command
    ensures !r.alive <==> (cmd[0] == "exit" && size == 1) || (cmd[0] == "path" && size > |cmd|)
  {
    match Builtins.Dispatch(cmd, size)
    case NotBuiltin =>
      if env.forkOk then
        var program := SearchPath.Resolve(sh.searchPath, cmd[0], ExecutableFrom(env, sh.cwd));
        Run([Spawn(cmd, program, sh.cwd, sh.out, sh.err)], sh, true)
      else Run([Report(sh.err)], sh, true)
    case CdTo(dir) =>
      (match env.chdir(sh.cwd, dir)
       case Some(now) => Run([ChangeDir(now)], sh.(cwd := now), true)
       case None => Run([Report(sh.err)], sh, true))
    case SetPath(dirs) => Run([], sh.(searchPath := dirs), true)
    case Exit => Run([Terminate], sh, false)
    case Error => Run([Report(sh.err)], sh, true)
    case Fault => Run([Fault], sh, false)
  }

  /** Applies redirection (when the redirect flag is set) to a command and runs it,
      restoring both streams afterwards. `size` is the token count of the whole line. */
  function RunCommand(sh: Shell, cmd: Command, size: nat, env: Env): (r: Run)
    ensures r.shell.redirectSticky == sh.redirectSticky
    ensures r.shell.searchPath != sh.searchPath ==> |cmd| > 0 && cmd[0] == "path"
    ensures r.shell.cwd != sh.cwd ==> |cmd| > 0 && cmd[0] == "cd"
    // an empty command crashes the process
    ensures |cmd| == 0 ==> r.actions == [Fault] && !r.alive
    // without the flag nothing is redirected or restored
    ensures !sh.redirectSticky ==> forall a :: a in r.actions ==> !a.Redirect? && !a.Restore?
    // without the flag the command is executed exactly as given
    ensures !sh.redirectSticky && |cmd| > 0 ==> r == Execute(sh, cmd, size, env)
    // a redirection error executes nothing
    ensures sh.redirectSticky && |cmd| > 0 && Redirection.Parse(cmd).Malformed? ==>
      r == Run([Report(sh.err)], sh, true)
    // a redirection happens first, and once the command has run both streams are restored
    ensures sh.redirectSticky && |cmd| > 0 && Redirection.Parse(cmd).Parsed? ==>
      var p := Redirection.Parse(cmd);
      && (p.target.Some? ==> |r.actions| > 0 && r.actions[0] == Redirect(p.target.value.stream, p.target.value.file))
      && (r.alive ==> |r.actions| > 0 && r.actions[|r.actions| - 1] == Restore)
      && (r.alive && p.target.Some? ==> r.shell.out == sh.out && r.shell.err == sh.err)
    // between the redirection and the restore, the shortened command is executed on the
    // rebound streams, still judged by the line's count; a redirection that leaves no
    // command crashes the process
    ensures sh.redirectSticky && |cmd| > 0 && Redirection.Parse(cmd).Parsed? ==>
      var p := Redirection.Parse(cmd);
      var opening := if p.target.Some? then [Redirect(p.target.value.stream, p.target.value.file)] else [];
      var bound := Rebind(sh, p.target, env);
      if |p.command| == 0 then r.actions == opening + [Fault] && !r.alive
      else
        var e := Execute(bound, p.command, size, env);
        && r.alive == e.alive
        && r.actions == opening + e.actions + (if e.alive then [Restore] else [])
        && r.shell == (if e.alive then Restored(e.shell) else e.shell)
  {
    if |cmd| == 0 then Run([Fault], sh, false)
    else if !sh.redirectSticky then Execute(sh, cmd, size, env)
    else match Redirection.Parse(cmd)
      case Malformed => Run([Report(sh.err)], sh, true)
      case Parsed(target, command) =>
        var opening := if target.Some? then [Redirect(target.value.stream, target.value.file)] else [];
        var bound := Rebind(sh, target, env);
        if |command| == 0 then Run(opening + [Fault], bound, false)
        else
          var e := Execute(bound, command, size, env);
          assert command == cmd[..|command|];
          if e.alive then Run(opening + e.actions + [Restore], Restored(e.shell), true)
          else Run(opening + e.actions, e.shell, false)
  }

  /** One command of a parallel group other than the last: forked, run, waited for. */
  function ChildAction(sh: Shell, cmd: Command, size: nat, env: Env): (r: Action)
    // a child exists exactly when the fork succeeded; otherwise the error is reported
    ensures r.Subshell? <==> env.forkOk
    ensures !env.forkOk ==> r == Report(sh.err)
    ensures r.Subshell? ==> r.command == cmd
    // the child runs its segment as the shell would run a command, redirection included,
    // judged by the line's count; only its actions survive, its state dies with it
    ensures r.Subshell? ==> r.body == RunCommand(sh, cmd, size, env).actions
    // an empty segment crashes the child
    ensures r.Subshell? && |cmd| == 0 ==> r.body == [Fault]
    // a program named by the segment is launched from the child, on the shell's streams and directory
    ensures r.Subshell? && |cmd| > 0 && !sh.redirectSticky && !Builtins.IsBuiltinName(cmd[0]) ==>
      r.body == [Spawn(cmd, SearchPath.Resolve(sh.searchPath, cmd[0], ExecutableFrom(env, sh.cwd)), sh.cwd, sh.out, sh.err)]
  {
    if env.forkOk then Subshell(cmd, RunCommand(sh, cmd, size, env).actions) else Report(sh.err)
  }

  /** The child commands of a group, launched one after the other from left to right. */
  function Children(sh: Shell, cmds: seq<Command>, size: nat, env: Env): seq<Action>
  {
    seq(|cmds|, i requires 0 <= i < |cmds| => ChildAction(sh, cmds[i], size, env))
  }

  /** The `i`-th child action is that of the `i`-th command. */
  lemma ChildrenInOrder(sh: Shell, cmds: seq<Command>, size: nat, env: Env)
    ensures |Children(sh, cmds, size, env)| == |cmds|
    ensures forall i :: 0 <= i < |cmds| ==> Children(sh, cmds, size, env)[i] == ChildAction(sh, cmds[i], size, env)
  {
  }

  /** Processes one tokenized input line in the shell process. */
  function ProcessLine(sh: Shell, tokens: Command, env: Env): (r: Run)
    // the redirect flag is raised by any `>` and never lowered
    ensures r.shell.redirectSticky == (sh.redirectSticky || RedirectMarker in tokens)
    // an empty line, or a line that is only `&`, does nothing at all
    ensures |tokens| == 0 || tokens == [ParallelMarker] ==> r.actions == [] && r.shell == sh && r.alive
    // a line without `&` is one command, run under the updated flag and judged by the line's length
    ensures |tokens| > 0 && ParallelMarker !in tokens ==>
      r == RunCommand(sh.(redirectSticky := sh.redirectSticky || RedirectMarker in tokens), tokens, |tokens|, env)
    // a parallel line: the child commands run first, in order, each in its own waited-for
    // child; then the end-of-line child is forked; then the last command runs in the shell
    ensures ParallelMarker in tokens && |tokens| > 1 ==>
      var flagged := sh.(redirectSticky := sh.redirectSticky || RedirectMarker in tokens);
      var g := Parallel.Split(tokens);
      var last := RunCommand(flagged, g.parent, |tokens|, env);
      && |g.children| == Occurrences(Parallel.Trim(tokens), ParallelMarker)
      && |r.actions| == |g.children| + 1 + |last.actions|
      && (forall i :: 0 <= i < |g.children| ==> r.actions[i] == ChildAction(flagged, g.children[i], |tokens|, env))
      && r.actions[|g.children|] == (if env.forkOk then Sentinel else Report(flagged.err))
      && r.actions[|g.children| + 1..] == last.actions
      && r.shell == last.shell && r.alive == last.alive
  {
    if |tokens| == 0 then Run([], sh, true)
    else
      var flags := Classify(sh.redirectSticky, tokens);
      var flagged := sh.(redirectSticky := flags.redirect);
      assert flags.size == |tokens| && flags.parallel == (ParallelMarker in tokens);
      if flags.parallel && flags.size == 1 then Run([], flagged, true)
      else if flags.parallel then
        var g := Parallel.Split(tokens);
        var last := RunCommand(flagged, g.parent, flags.size, env);
        var closing := if env.forkOk then Sentinel else Report(flagged.err);
        ChildrenInOrder(flagged, g.children, flags.size, env);
        Run(Children(flagged, g.children, flags.size, env) + [closing] + last.actions, last.shell, last.alive)
      else RunCommand(flagged, tokens, flags.size, env)
  }

  /** Processes lines in order until one of them ends the shell. */
  function RunScript(sh: Shell, lines: seq<Command>, env: Env): (r: Run)
    ensures sh.redirectSticky ==> r.shell.redirectSticky
    ensures r.shell.redirectSticky ==> sh.redirectSticky || exists k :: 0 <= k < |lines| && RedirectMarker in lines[k]
    ensures r.alive ==>
      (r.shell.redirectSticky <==> sh.redirectSticky || exists k :: 0 <= k < |lines| && RedirectMarker in lines[k])
    // no lines, nothing done
    ensures |lines| == 0 ==> r == Run([], sh, true)
    // the first line runs first, and a line that ends the shell ends the run there
    ensures |lines| > 0 ==>
      var first := ProcessLine(sh, lines[0], env);
      && |first.actions| <= |r.actions| && r.actions[..|first.actions|] == first.actions
      && (!first.alive ==> r == first)
    decreases |lines|
  {
    if |lines| == 0 then Run([], sh, true)
    else
      var first := ProcessLine(sh, lines[0], env);
      if !first.alive then first
      else
        var rest := RunScript(first.shell, lines[1..], env);
        assert forall k :: 0 <= k < |lines| - 1 ==> lines[1..][k] == lines[k + 1];
        assert (first.actions + rest.actions)[..|first.actions|] == first.actions;
        Run(first.actions + rest.actions, rest.shell, rest.alive)
  }
}

=== FILE: engine_properties.dfy ===
/** Whole-line consequences of the engine's rules: redirection round trips, the
    three redirection errors, the built-ins seen from a line, the parallel group's
    order, and the effects of the line-wide token count and of the redirect flag
    never being cleared. */
module EngineProperties {
  import opened Wrappers
  import opened Tokens
  import SearchPath
  import Redirection
  import Parallel
  import Builtins
  import opened Engine

  /** A line without `>` or `&` is run as one command, judged by its own length. */
  lemma PlainLine(sh: Shell, tokens: Command, env: Env)
    requires |tokens| > 0 && RedirectMarker !in tokens && ParallelMarker !in tokens
    ensures ProcessLine(sh, tokens, env) == RunCommand(sh, tokens, |tokens|, env)
  {
  }

  /** A command without `>` is executed as it is; with the redirect flag up, the
      streams are restored afterwards all the same. */
  lemma UnredirectedRun(sh: Shell, cmd: Command, size: nat, env: Env)
    requires |cmd| > 0 && RedirectMarker !in cmd
    ensures var e := Execute(sh, cmd, size, env);
      RunCommand(sh, cmd, size, env) ==
        if sh.redirectSticky && e.alive then Run(e.actions + [Restore], Restored(e.shell), true) else e
  {
    if sh.redirectSticky {
      assert Redirection.Parse(cmd) == Redirection.Parsed(None, cmd);
    }
  }

  /** A line without `&` whose redirection parses with a target: the target is opened,
      the shortened command executed on the rebound streams, and the streams restored. */
  lemma RedirectedLine(sh: Shell, tokens: Command, env: Env)
    requires |tokens| > 0 && ParallelMarker !in tokens
    requires Redirection.Parse(tokens).Parsed? && Redirection.Parse(tokens).target.Some?
    requires |Redirection.Parse(tokens).command| > 0
    ensures var p := Redirection.Parse(tokens);
      var bound := Rebind(sh.(redirectSticky := true), p.target, env);
      var e := Execute(bound, p.command, |tokens|, env);
      var opening := [Redirect(p.target.value.stream, p.target.value.file)];
      ProcessLine(sh, tokens, env) ==
        if e.alive then Run(opening + e.actions + [Restore], Restored(e.shell), true)
        else Run(opening + e.actions, e.shell, false)
  {
    assert RedirectMarker in tokens;
  }

  /** A rendered redirection holds no `&` when neither its command nor its file does. */
  lemma RenderUnmarked(target: Redirection.Target, cmd: Command)
    requires ParallelMarker !in cmd && target.file != ParallelMarker
    ensures ParallelMarker !in Redirection.Render(target, cmd)
  {
  }

  /** A redirected program: the target is opened first, the program is launched on the
      streams as rebound, and the shell's own streams are then restored. */
  lemma RedirectedLaunch(sh: Shell, target: Redirection.Target, cmd: Command, env: Env)
    requires |cmd| > 0 && RedirectMarker !in cmd && ParallelMarker !in cmd && target.file != ParallelMarker
    requires target.stream == Redirection.Stdout ==> cmd[|cmd| - 1] != StderrDigit
    requires !Builtins.IsBuiltinName(cmd[0]) && env.forkOk
    ensures var bound := Rebind(sh.(redirectSticky := true), Some(target), env);
      ProcessLine(sh, Redirection.Render(target, cmd), env) ==
        Run([Redirect(target.stream, target.file),
             Spawn(cmd, SearchPath.Resolve(sh.searchPath, cmd[0], ExecutableFrom(env, sh.cwd)), sh.cwd, bound.out, bound.err),
             Restore],
            sh.(redirectSticky := true, savedOut := sh.out, savedErr := sh.err),
            true)
  {
    var tokens := Redirection.Render(target, cmd);
    Redirection.ParseRender(target, cmd);
    RenderUnmarked(target, cmd);
    RedirectedLine(sh, tokens, env);
    assert Builtins.Dispatch(cmd, |tokens|) == Builtins.NotBuiltin;
  }

  /** `cmd > file`: the file is created and bound to stdout, the command is launched
      on it, and afterwards the shell's own streams are back where they were. */
  lemma RedirectStdoutLine(sh: Shell, cmd: Command, file: string, env: Env)
    requires |cmd| > 0 && RedirectMarker !in cmd && ParallelMarker !in cmd && file != ParallelMarker
    requires cmd[|cmd| - 1] != StderrDigit && !Builtins.IsBuiltinName(cmd[0])
    requires env.forkOk && env.canCreate(sh.cwd, file)
    ensures ProcessLine(sh, cmd + [RedirectMarker, file], env) ==
      Run([Redirect(Redirection.Stdout, file),
           Spawn(cmd, SearchPath.Resolve(sh.searchPath, cmd[0], ExecutableFrom(env, sh.cwd)), sh.cwd, File(sh.cwd, file), sh.err),
           Restore],
          sh.(redirectSticky := true, savedOut := sh.out, savedErr := sh.err),
          true)
  {
    var target := Redirection.Target(Redirection.Stdout, file);
    assert cmd + [RedirectMarker, file] == Redirection.Render(target, cmd);
    RedirectedLaunch(sh, target, cmd, env);
  }

  /** `cmd 2 > file`: as above, with stderr bound to the file instead. */
  lemma RedirectStderrLine(sh: Shell, cmd: Command, file: string, env: Env)
    requires |cmd| > 0 && RedirectMarker !in cmd && ParallelMarker !in cmd && file != ParallelMarker
    requires !Builtins.IsBuiltinName(cmd[0])
    requires env.forkOk && env.canCreate(sh.cwd, file)
    ensures ProcessLine(sh, cmd + [StderrDigit, RedirectMarker, file], env) ==
      Run([Redirect(Redirection.Stderr, file),
           Spawn(cmd, SearchPath.Resolve(sh.searchPath, cmd[0], ExecutableFrom(env, sh.cwd)), sh.cwd, sh.out, File(sh.cwd, file)),
           Restore],
          sh.(redirectSticky := true, savedOut := sh.out, savedErr := sh.err),
          true)
  {
    var target := Redirection.Target(Redirection.Stderr, file);
    assert cmd + [StderrDigit, RedirectMarker, file] == Redirection.Render(target, cmd);
    RedirectedLaunch(sh, target, cmd, env);
  }

  /** A line whose first `>` starts it, ends it, or is followed by more than one token
      reports the error and runs nothing. */
  lemma MalformedRedirectRunsNothing(sh: Shell, cmd: Command, after: Command, env: Env)
    requires RedirectMarker !in cmd && ParallelMarker !in cmd && ParallelMarker !in after
    requires |cmd| == 0 || |after| != 1
    ensures ProcessLine(sh, cmd + [RedirectMarker] + after, env) ==
      Run([Report(sh.err)], sh.(redirectSticky := true), true)
  {
    var tokens := cmd + [RedirectMarker] + after;
    assert tokens[|cmd|] == RedirectMarker;
    assert tokens[..|cmd|] == cmd;
    assert ParallelMarker !in tokens;
    if |cmd| > 0 {
      assert tokens[0] == cmd[0];
    }
    assert Redirection.Parse(tokens).Malformed?;
  }

  /** `path` with no arguments empties the search path, after which no program is ever found. */
  lemma EmptyPathFindsNothing(sh: Shell, cmd: Command, env: Env)
    requires |cmd| > 0 && RedirectMarker !in cmd && ParallelMarker !in cmd
    requires !Builtins.IsBuiltinName(cmd[0]) && env.forkOk
    ensures var cleared := ProcessLine(sh, ["path"], env).shell;
      var r := ProcessLine(cleared, cmd, env);
      && cleared.searchPath == []
      && |r.actions| > 0 && r.actions[0] == Spawn(cmd, None, cleared.cwd, cleared.out, cleared.err)
  {
    PlainLine(sh, ["path"], env);
    UnredirectedRun(sh, ["path"], 1, env);
    assert Builtins.Dispatch(["path"], 1) == Builtins.SetPath([]);
    var cleared := ProcessLine(sh, ["path"], env).shell;
    assert cleared.searchPath == [];
    PlainLine(cleared, cmd, env);
    UnredirectedRun(cleared, cmd, |cmd|, env);
  }

  /** `path d1 ... dn` replaces the search path with exactly `d1 ... dn` and forks nothing. */
  lemma PathReplacesSearchPath(sh: Shell, dirs: seq<string>, env: Env)
    requires RedirectMarker !in dirs && ParallelMarker !in dirs
    ensures ProcessLine(sh, ["path"] + dirs, env).shell.searchPath == dirs
    ensures forall a :: a in ProcessLine(sh, ["path"] + dirs, env).actions ==> !a.Spawn?
  {
    var tokens := ["path"] + dirs;
    assert RedirectMarker !in tokens && ParallelMarker !in tokens;
    PlainLine(sh, tokens, env);
    UnredirectedRun(sh, tokens, |tokens|, env);
    assert tokens[1..|tokens|] == dirs;
    assert Builtins.Dispatch(tokens, |tokens|) == Builtins.SetPath(dirs);
  }

  /** `cd` with a number of arguments other than one reports the error and stays put. */
  lemma CdArity(sh: Shell, args: seq<string>, env: Env)
    requires |args| != 1 && RedirectMarker !in args && ParallelMarker !in args
    ensures var r := ProcessLine(sh, ["cd"] + args, env);
      |r.actions| > 0 && r.actions[0] == Report(sh.err) && r.shell.cwd == sh.cwd && r.alive
  {
    var tokens := ["cd"] + args;
    assert RedirectMarker !in tokens && ParallelMarker !in tokens;
    PlainLine(sh, tokens, env);
    UnredirectedRun(sh, tokens, |tokens|, env);
    assert Builtins.Dispatch(tokens, |tokens|) == Builtins.Error;
  }

  /** `cd dir` moves the shell to wherever `chdir` leads, or reports when it fails. */
  lemma CdOneArgument(sh: Shell, dir: string, env: Env)
    requires dir != RedirectMarker && dir != ParallelMarker
    ensures var r := ProcessLine(sh, ["cd", dir], env);
      && r.alive
      && (env.chdir(sh.cwd, dir).Some? ==> r.shell.cwd == env.chdir(sh.cwd, dir).value)
      && (env.chdir(sh.cwd, dir).None? ==> r.shell.cwd == sh.cwd && |r.actions| > 0 && r.actions[0] == Report(sh.err))
  {
    var tokens := ["cd", dir];
    PlainLine(sh, tokens, env);
    UnredirectedRun(sh, tokens, 2, env);
    assert Builtins.Dispatch(tokens, 2) == Builtins.CdTo(dir);
  }

  /** After a successful `cd dir`, the next program is launched in the new directory
      and its program is searched for from there. */
  lemma CdSeenByLaterLaunch(sh: Shell, dir: string, cmd: Command, env: Env)
    requires dir != RedirectMarker && dir != ParallelMarker && env.chdir(sh.cwd, dir).Some?
    requires |cmd| > 0 && RedirectMarker !in cmd && ParallelMarker !in cmd
    requires !Builtins.IsBuiltinName(cmd[0]) && env.forkOk
    ensures var now := env.chdir(sh.cwd, dir).value;
      var moved := ProcessLine(sh, ["cd", dir], env).shell;
      var r := ProcessLine(moved, cmd, env);
      && moved.cwd == now && moved.searchPath == sh.searchPath
      && |r.actions| > 0
      && r.actions[0] == Spawn(cmd, SearchPath.Resolve(sh.searchPath, cmd[0], ExecutableFrom(env, now)), now, moved.out, moved.err)
  {
    CdOneArgument(sh, dir, env);
    var moved := ProcessLine(sh, ["cd", dir], env).shell;
    PlainLine(moved, cmd, env);
    UnredirectedRun(moved, cmd, |cmd|, env);
  }

  /** `exit` on its own ends the shell and does nothing else. */
  lemma ExitAlone(sh: Shell, env: Env)
    ensures ProcessLine(sh, ["exit"], env) == Run([Terminate], sh, false)
  {
    assert Redirection.Parse(["exit"]) == Redirection.Parsed(None, ["exit"]);
  }

  /** `exit` with arguments reports the error and the shell carries on. */
  lemma ExitWithArguments(sh: Shell, args: seq<string>, env: Env)
    requires |args| > 0 && RedirectMarker !in args && ParallelMarker !in args
    ensures var r := ProcessLine(sh, ["exit"] + args, env);
      |r.actions| > 0 && r.actions[0] == Report(sh.err) && r.alive && Terminate !in r.actions
  {
    var tokens := ["exit"] + args;
    assert RedirectMarker !in tokens && ParallelMarker !in tokens;
    PlainLine(sh, tokens, env);
    UnredirectedRun(sh, tokens, |tokens|, env);
    assert Builtins.Dispatch(tokens, |tokens|) == Builtins.Error;
  }

  /** A one-word command that is neither a marker nor a built-in. */
  predicate PlainProgram(x: string)
  {
    x != RedirectMarker && x != ParallelMarker && !Builtins.IsBuiltinName(x)
  }

  /** The launch of a one-word command from the shell's current streams. */
  function Launched(sh: Shell, x: string, env: Env): Action
  {
    Spawn([x], SearchPath.Resolve(sh.searchPath, x, ExecutableFrom(env, sh.cwd)), sh.cwd, sh.out, sh.err)
  }

  /** A plain one-word command, run without the redirect flag, is exactly its launch. */
  lemma PlainRun(sh: Shell, x: string, size: nat, env: Env)
    requires !sh.redirectSticky && env.forkOk && PlainProgram(x)
    ensures RunCommand(sh, [x], size, env) == Run([Launched(sh, x, env)], sh, true)
  {
  }

  /** `a & b & c` splits into the children `a` and `b` and the parent command `c`. */
  lemma SplitOfThree(a: string, b: string, c: string)
    requires a != ParallelMarker && b != ParallelMarker && c != ParallelMarker
    ensures Parallel.Split([a, ParallelMarker, b, ParallelMarker, c]) == Parallel.Group([[a], [b]], [c])
  {
    var segs := [[a], [b]] + [[c]];
    assert Parallel.Join([[a], [b]]) == [a, ParallelMarker, b] by {
      assert [[a], [b]][..1] == [[a]];
    }
    assert Parallel.Join(segs) == [a, ParallelMarker, b, ParallelMarker, c] by {
      assert segs[..2] == [[a], [b]];
    }
    assert Parallel.Unmarked(segs);
    Parallel.SplitJoin([[a], [b]], [c]);
  }

  /** `a & b & c` with three programs: `a` and `b` each run in a child the shell waits
      for, in that order, then the end-of-line child is forked, then `c` is launched
      from the shell itself. */
  lemma ParallelGroupOfThree(sh: Shell, a: string, b: string, c: string, env: Env)
    requires !sh.redirectSticky && env.forkOk
    requires PlainProgram(a) && PlainProgram(b) && PlainProgram(c)
    ensures ProcessLine(sh, [a, ParallelMarker, b, ParallelMarker, c], env) ==
      Run([Subshell([a], [Launched(sh, a, env)]), Subshell([b], [Launched(sh, b, env)]),
           Sentinel, Launched(sh, c, env)], sh, true)
  {
    var tokens := [a, ParallelMarker, b, ParallelMarker, c];
    SplitOfThree(a, b, c);
    assert RedirectMarker !in tokens;
    var flagged := sh.(redirectSticky := sh.redirectSticky || RedirectMarker in tokens);
    assert flagged == sh;
    PlainRun(sh, a, 5, env);
    PlainRun(sh, b, 5, env);
    PlainRun(sh, c, 5, env);
    var r := ProcessLine(sh, tokens, env);
    assert r.actions[0] == Subshell([a], [Launched(sh, a, env)]);
    assert r.actions[1] == Subshell([b], [Launched(sh, b, env)]);
    assert r.actions[2] == Sentinel;
    assert r.actions[3..] == [Launched(sh, c, env)];
  }

  /** `u & v` splits into the one child `u` and the last command `v`. */
  lemma SplitOfPair(u: Command, v: Command)
    requires ParallelMarker !in u && ParallelMarker !in v && |v| > 0
    ensures Parallel.Split(u + [ParallelMarker] + v) == Parallel.Group([u], v)
  {
    var segs := [u, v];
    assert Parallel.Join(segs) == u + [ParallelMarker] + v by {
      assert segs[..1] == [u];
    }
    assert Parallel.Unmarked(segs);
    Parallel.SplitJoin([u], v);
  }

  /** A line `u & v`: first the child that runs `u`, and the shell ends up as `v` leaves it. */
  lemma PairLine(sh: Shell, u: Command, v: Command, env: Env)
    requires ParallelMarker !in u && ParallelMarker !in v && |v| > 0
    ensures var tokens := u + [ParallelMarker] + v;
      var flagged := sh.(redirectSticky := sh.redirectSticky || RedirectMarker in tokens);
      var r := ProcessLine(sh, tokens, env);
      var last := RunCommand(flagged, v, |tokens|, env);
      && |r.actions| > 0 && r.actions[0] == ChildAction(flagged, u, |tokens|, env)
      && r.shell == last.shell && r.alive == last.alive
  {
    SplitOfPair(u, v);
  }

  /** `c > f` run under the redirect flag: redirect, launch on the rebound stdout, restore. */
  lemma RedirectedProgram(sh: Shell, c: string, f: string, size: nat, env: Env)
    requires sh.redirectSticky && PlainProgram(c) && c != StderrDigit && f != RedirectMarker
    requires env.forkOk && env.canCreate(sh.cwd, f)
    ensures RunCommand(sh, [c, RedirectMarker, f], size, env) ==
      Run([Redirect(Redirection.Stdout, f),
           Spawn([c], SearchPath.Resolve(sh.searchPath, c, ExecutableFrom(env, sh.cwd)), sh.cwd, File(sh.cwd, f), sh.err),
           Restore],
          sh.(savedOut := sh.out, savedErr := sh.err),
          true)
  {
    var target := Redirection.Target(Redirection.Stdout, f);
    Redirection.ParseRender(target, [c]);
    assert [c, RedirectMarker, f] == Redirection.Render(target, [c]);
    assert Builtins.Dispatch([c], size) == Builtins.NotBuiltin;
  }

  /** A child running `c > f` under the redirect flag redirects, launches and restores. */
  lemma RedirectedChild(sh: Shell, c: string, f: string, size: nat, env: Env)
    requires sh.redirectSticky && PlainProgram(c) && c != StderrDigit && f != RedirectMarker
    requires env.forkOk && env.canCreate(sh.cwd, f)
    ensures ChildAction(sh, [c, RedirectMarker, f], size, env) ==
      Subshell([c, RedirectMarker, f],
               [Redirect(Redirection.Stdout, f),
                Spawn([c], SearchPath.Resolve(sh.searchPath, c, ExecutableFrom(env, sh.cwd)), sh.cwd, File(sh.cwd, f), sh.err),
                Restore])
  {
    RedirectedProgram(sh, c, f, size, env);
  }

  /** `c > f & d`: the redirection is applied in the child that runs `c`, and undone
      there before the child ends. */
  lemma RedirectInChildSegment(sh: Shell, c: string, f: string, d: string, env: Env)
    requires !sh.redirectSticky && PlainProgram(c) && c != StderrDigit && d != ParallelMarker
    requires f != RedirectMarker && f != ParallelMarker
    requires env.forkOk && env.canCreate(sh.cwd, f)
    ensures var r := ProcessLine(sh, [c, RedirectMarker, f, ParallelMarker, d], env);
      && |r.actions| > 0
      && r.actions[0] ==
           Subshell([c, RedirectMarker, f],
                    [Redirect(Redirection.Stdout, f),
                     Spawn([c], SearchPath.Resolve(sh.searchPath, c, ExecutableFrom(env, sh.cwd)), sh.cwd, File(sh.cwd, f), sh.err),
                     Restore])
  {
    var tokens := [c, RedirectMarker, f, ParallelMarker, d];
    assert [c, RedirectMarker, f] + [ParallelMarker] + [d] == tokens;
    PairLine(sh, [c, RedirectMarker, f], [d], env);
    assert RedirectMarker in tokens;
    RedirectedChild(sh.(redirectSticky := true), c, f, 5, env);
  }

  /** ... while the shell's own command `d`, run under the flag the line raised, still
      ends with a restore, which binds the shell's streams to whatever was saved before
      this line. */
  lemma ChildRedirectRestoresShell(sh: Shell, c: string, f: string, d: string, env: Env)
    requires c != ParallelMarker && f != ParallelMarker && PlainProgram(d)
    ensures var r := ProcessLine(sh, [c, RedirectMarker, f, ParallelMarker, d], env);
      r.alive && r.shell.out == sh.savedOut && r.shell.err == sh.savedErr
  {
    var tokens := [c, RedirectMarker, f, ParallelMarker, d];
    assert [c, RedirectMarker, f] + [ParallelMarker] + [d] == tokens;
    assert RedirectMarker in tokens;
    PairLine(sh, [c, RedirectMarker, f], [d], env);
    UnredirectedRun(sh.(redirectSticky := true), [d], 5, env);
  }

  /** ... so on a fresh shell, `c > f & d` leaves the shell's own output streams bound to
      descriptor 0, the value of the never-assigned saved descriptors. */
  lemma ChildRedirectRestoresZero(cwd: string, c: string, f: string, d: string, env: Env)
    requires c != ParallelMarker && f != ParallelMarker && PlainProgram(d)
    ensures var r := ProcessLine(Start(cwd), [c, RedirectMarker, f, ParallelMarker, d], env);
      r.alive && r.shell.out == Inherited(0) && r.shell.err == Inherited(0)
  {
    ChildRedirectRestoresShell(Start(cwd), c, f, d, env);
  }

  /** The count handed to the built-ins is that of the whole line: `exit &` leaves
      `exit` alone as the command, yet it is judged to have an argument. */
  lemma ExitInParallelLineReports(sh: Shell, env: Env)
    ensures var r := ProcessLine(sh, ["exit", ParallelMarker], env);
      r.alive && Terminate !in r.actions && Report(sh.err) in r.actions
  {
    var tokens := ["exit", ParallelMarker];
    assert Parallel.Trim(tokens) == ["exit"];
    assert Parallel.Split(tokens) == Parallel.Group([], ["exit"]);
    assert RedirectMarker !in tokens;
    var last := RunCommand(sh, ["exit"], 2, env);
    ExitCountedTwo(sh, env);
    var r := ProcessLine(sh, tokens, env);
    assert r.actions == [r.actions[0]] + last.actions;
  }

  /** `exit` judged with a count of two only reports, then restores under the flag. */
  lemma ExitCountedTwo(sh: Shell, env: Env)
    ensures var r := RunCommand(sh, ["exit"], 2, env);
      r.alive && Terminate !in r.actions && Report(sh.err) in r.actions
  {
    assert Builtins.Dispatch(["exit"], 2) == Builtins.Error;
    UnredirectedRun(sh, ["exit"], 2, env);
  }

  lemma CdWithRedirectReports(sh: Shell, dir: string, file: string, env: Env)
    requires dir != RedirectMarker && dir != ParallelMarker && dir != StderrDigit && file != ParallelMarker
    ensures var r := ProcessLine(sh, ["cd", dir, RedirectMarker, file], env);
      r.alive && r.shell.cwd == sh.cwd && Report(sh.err) in r.actions
  {
    var tokens := ["cd", dir, RedirectMarker, file];
    assert ParallelMarker !in tokens;
    Redirection.ParseRender(Redirection.Target(Redirection.Stdout, file), ["cd", dir]);
    assert tokens == Redirection.Render(Redirection.Target(Redirection.Stdout, file), ["cd", dir]);
    RedirectedLine(sh, tokens, env);
    assert Builtins.Dispatch(["cd", dir], 4) == Builtins.Error;
  }

  /** ... and `path dir > file` reads past the shortened command and crashes the shell. */
  lemma PathWithRedirectFaults(sh: Shell, dir: string, file: string, env: Env)
    requires dir != RedirectMarker && dir != ParallelMarker && dir != StderrDigit && file != ParallelMarker
    ensures !ProcessLine(sh, ["path", dir, RedirectMarker, file], env).alive
  {
    var tokens := ["path", dir, RedirectMarker, file];
    assert ParallelMarker !in tokens;
    Redirection.ParseRender(Redirection.Target(Redirection.Stdout, file), ["path", dir]);
    assert tokens == Redirection.Render(Redirection.Target(Redirection.Stdout, file), ["path", dir]);
    RedirectedLine(sh, tokens, env);
  }

  /** Empty segments are not filtered: a leading `&` gives a child with no command,
      which crashes while the shell goes on. */
  lemma LeadingSeparator(sh: Shell, cmd: Command, env: Env)
    requires |cmd| > 0 && RedirectMarker !in cmd && ParallelMarker !in cmd
    requires !sh.redirectSticky && env.forkOk && !Builtins.IsBuiltinName(cmd[0])
    ensures var r := ProcessLine(sh, [ParallelMarker] + cmd, env);
      |r.actions| > 0 && r.actions[0] == Subshell([], [Fault]) && r.alive
  {
    var tokens := [ParallelMarker] + cmd;
    assert Parallel.Split(tokens) == Parallel.Group([[]], cmd) by {
      var segs := [[], cmd];
      assert Parallel.Unmarked(segs);
      assert Parallel.Join(segs) == tokens;
      Parallel.SplitJoin([[]], cmd);
    }
    assert RedirectMarker !in tokens;
    assert RunCommand(sh, [], |tokens|, env).actions == [Fault];
    assert RunCommand(sh, cmd, |tokens|, env).alive;
  }

  /** ... and `& &` leaves the shell itself with no command, so the shell crashes. */
  lemma TwoSeparatorsCrashShell(sh: Shell, env: Env)
    ensures !ProcessLine(sh, [ParallelMarker, ParallelMarker], env).alive
  {
    var tokens := [ParallelMarker, ParallelMarker];
    assert Parallel.Trim(tokens) == [ParallelMarker];
    assert Parallel.Segments([ParallelMarker]) == [[], []];
  }

  /** The redirect flag outlives the line that raised it. When that line's redirection
      was malformed, nothing was saved, and the next line's restore binds both of the
      shell's output streams to descriptor 0. */
  lemma RestoreAfterMalformedFirstRedirect(cwd: string, name: string, env: Env)
    requires name != RedirectMarker && name != ParallelMarker && !Builtins.IsBuiltinName(name)
    ensures var first := ProcessLine(Start(cwd), [name, RedirectMarker], env);
      var second := ProcessLine(first.shell, [name], env);
      && first.actions == [Report(Inherited(2))]
      && second.alive && |second.actions| > 0 && second.actions[|second.actions| - 1] == Restore
      && second.shell.out == Inherited(0) && second.shell.err == Inherited(0)
  {
    MalformedRedirectRunsNothing(Start(cwd), [name], [], env);
    assert [name] + [RedirectMarker] + [] == [name, RedirectMarker];
    var first := ProcessLine(Start(cwd), [name, RedirectMarker], env);
    PlainLine(first.shell, [name], env);
    UnredirectedRun(first.shell, [name], 1, env);
  }

  /** `x` followed by `y`, where `y` only happens if `x` leaves the shell running. */
  function Then(x: Run, y: Run): Run
  {
    if x.alive then Run(x.actions + y.actions, y.shell, y.alive) else x
  }

  /** Sequencing runs is associative. */
  lemma ThenAssoc(x: Run, y: Run, z: Run)
    ensures Then(x, Then(y, z)) == Then(Then(x, y), z)
  {
    if x.alive && y.alive {
      assert x.actions + (y.actions + z.actions) == (x.actions + y.actions) + z.actions;
    }
  }

  /** Running two scripts one after the other is running their concatenation: the
      second starts from the state the first leaves, unless the first ended the shell,
      in which case the lines after it never run. */
  lemma {:induction false} RunScriptConcat(sh: Shell, a: seq<Command>, b: seq<Command>, env: Env)
    ensures var ra := RunScript(sh, a, env);
      RunScript(sh, a + b, env) == Then(ra, RunScript(ra.shell, b, env))
    decreases |a|, 2
  {
    if |a| == 0 {
      assert a + b == b;
      assert [] + RunScript(sh, b, env).actions == RunScript(sh, b, env).actions;
    } else {
      RunScriptConcatCons(sh, a, b, env);
    }
  }

  /** A non-empty script runs its first line, then the rest from there. */
  lemma RunScriptFirst(sh: Shell, lines: seq<Command>, env: Env)
    requires |lines| > 0
    ensures var first := ProcessLine(sh, lines[0], env);
      RunScript(sh, lines, env) == Then(first, RunScript(first.shell, lines[1..], env))
  {
  }

  /** The step of `RunScriptConcat`: the first line of `a` is the first line of `a + b`. */
  lemma {:induction false} RunScriptConcatCons(sh: Shell, a: seq<Command>, b: seq<Command>, env: Env)
    requires |a| > 0
    ensures var ra := RunScript(sh, a, env);
      RunScript(sh, a + b, env) == Then(ra, RunScript(ra.shell, b, env))
    decreases |a|, 1
  {
    assert (a + b)[0] == a[0] && (a + b)[1..] == a[1..] + b;
    RunScriptFirst(sh, a, env);
    RunScriptFirst(sh, a + b, env);
    ThenConcat(ProcessLine(sh, a[0], env), a[1..], b, env);
  }

  /** `RunScriptConcat` for the lines after a first line with result `first`. */
  lemma {:induction false} ThenConcat(first: Run, rest: seq<Command>, b: seq<Command>, env: Env)
    ensures var ra := Then(first, RunScript(first.shell, rest, env));
      Then(first, RunScript(first.shell, rest + b, env)) == Then(ra, RunScript(ra.shell, b, env))
    decreases |rest| + 1, 0
  {
    var ra := RunScript(first.shell, rest, env);
    RunScriptConcat(first.shell, rest, b, env);
    ThenAssoc(first, ra, RunScript(ra.shell, b, env));
  }
}

=== FILE: parallel.dfy ===
/** Splitting a line into the commands of a parallel group. One trailing `&` is
    dropped; the rest is cut at every `&`. Every segment but the last runs in a
    forked child that the shell waits for; the last runs in the shell itself. */
module Parallel {
  import opened Tokens

  /** The segments of `t` between `&` tokens, in order; there is always at least one. */
  function Segments(t: Command): (r: seq<Command>)
    ensures |r| >= 1
    decreases |t|
  {
    if |t| == 0 then [[]]
    else
      var s := Segments(t[..|t| - 1]);
      var x := t[|t| - 1];
      if x == ParallelMarker then s + [[]]
      else s[..|s| - 1] + [s[|s| - 1] + [x]]
  }

  /** Puts segments back together with `&` between consecutive ones. */
  function Join(segs: seq<Command>): Command
    requires |segs| >= 1
    decreases |segs|
  {
    if |segs| == 1 then segs[0]
    else Join(segs[..|segs| - 1]) + [ParallelMarker] + segs[|segs| - 1]
  }

  /** No segment contains `&`. */
  ghost predicate Unmarked(segs: seq<Command>)
  {
    forall k :: 0 <= k < |segs| ==> ParallelMarker !in segs[k]
  }

  /** Extending the last segment by one token extends the joined line by that token. */
  lemma JoinExtendLast(segs: seq<Command>, x: string)
    requires |segs| >= 1
    ensures Join(segs[..|segs| - 1] + [segs[|segs| - 1] + [x]]) == Join(segs) + [x]
  {
    var n := |segs|;
    var segs' := segs[..n - 1] + [segs[n - 1] + [x]];
    if n > 1 {
      assert segs'[..n - 1] == segs[..n - 1];
    }
  }

  /** Segments of a line with one more token: `&` opens a new segment, any other token
      extends the last one. */
  lemma SegmentsSnoc(u: Command, x: string)
    ensures var s := Segments(u);
      Segments(u + [x]) == if x == ParallelMarker then s + [[]] else s[..|s| - 1] + [s[|s| - 1] + [x]]
  {
    assert (u + [x])[..|u|] == u;
  }

  /** Joining one more segment appends `&` and that segment. */
  lemma JoinSnoc(segs: seq<Command>, v: Command)
    requires |segs| >= 1
    ensures Join(segs + [v]) == Join(segs) + [ParallelMarker] + v
  {
    assert (segs + [v])[..|segs|] == segs;
  }

  /** If joining the segments of `u` gives `u` back, the same holds after one more token. */
  lemma JoinSegmentsSnoc(u: Command, x: string)
    requires Join(Segments(u)) == u
    ensures Join(Segments(u + [x])) == u + [x]
  {
    var s := Segments(u);
    SegmentsSnoc(u, x);
    if x == ParallelMarker {
      JoinSnoc(s, []);
      assert u + [ParallelMarker] + [] == u + [x];
    } else {
      JoinExtendLast(s, x);
    }
  }

  /** Joining the segments of a line gives the line back. */
  lemma {:induction false} JoinSegments(t: Command)
    ensures Join(Segments(t)) == t
    decreases |t|
  {
    if |t| > 0 {
      var u, x := t[..|t| - 1], t[|t| - 1];
      assert t == u + [x];
      JoinSegments(u);
      JoinSegmentsSnoc(u, x);
    }
  }

  /** Adding a segment free of `&` keeps a segment list free of `&`. */
  lemma UnmarkedSnoc(segs: seq<Command>, v: Command)
    requires Unmarked(segs) && ParallelMarker !in v
    ensures Unmarked(segs + [v])
  {
    assert forall k :: 0 <= k < |segs| ==> (segs + [v])[k] == segs[k];
  }

  /** The segments before the last one, and the last one, of a list free of `&`. */
  lemma UnmarkedInit(segs: seq<Command>)
    requires |segs| >= 1 && Unmarked(segs)
    ensures Unmarked(segs[..|segs| - 1]) && ParallelMarker !in segs[|segs| - 1]
  {
    assert forall k :: 0 <= k < |segs| - 1 ==> segs[..|segs| - 1][k] == segs[k];
  }

  /** No segment of a line contains `&`. */
  lemma {:induction false} SegmentsUnmarked(t: Command)
    ensures Unmarked(Segments(t))
    decreases |t|
  {
    if |t| > 0 {
      var u := t[..|t| - 1];
      var x := t[|t| - 1];
      var s := Segments(u);
      SegmentsUnmarked(u);
      assert t == u + [x];
      SegmentsSnoc(u, x);
      if x == ParallelMarker {
        UnmarkedSnoc(s, []);
      } else {
        UnmarkedInit(s);
        assert ParallelMarker !in s[|s| - 1] + [x];
        UnmarkedSnoc(s[..|s| - 1], s[|s| - 1] + [x]);
      }
    }
  }

  /** A line has one more segment than it has `&` tokens. */
  lemma {:induction false} SegmentsCount(t: Command)
    ensures |Segments(t)| == Occurrences(t, ParallelMarker) + 1
    decreases |t|
  {
    if |t| > 0 {
      var u := t[..|t| - 1];
      SegmentsCount(u);
      assert t == u + [t[|t| - 1]];
      SegmentsSnoc(u, t[|t| - 1]);
    }
  }

  /** Splitting is a partition: joining the segments gives the line back, no segment
      holds `&`, and there is one more segment than there are `&` tokens. */
  lemma SegmentsPartition(t: Command)
    ensures Join(Segments(t)) == t
    ensures Unmarked(Segments(t))
    ensures |Segments(t)| == Occurrences(t, ParallelMarker) + 1
  {
    JoinSegments(t);
    SegmentsUnmarked(t);
    SegmentsCount(t);
  }

  /** A line without `&` is a single segment. */
  lemma {:induction false} SegmentsOfUnmarked(v: Command)
    requires ParallelMarker !in v
    ensures Segments(v) == [v]
    decreases |v|
  {
    if |v| > 0 {
      var v' := v[..|v| - 1];
      var x := v[|v| - 1];
      assert ParallelMarker !in v' by {
        assert forall k :: 0 <= k < |v'| ==> v'[k] == v[k];
      }
      SegmentsOfUnmarked(v');
      assert v == v' + [x];
      SegmentsSnoc(v', x);
    }
  }

  /** The partition is unique: segments free of `&`, joined, split back into themselves. */
  lemma {:induction false} SegmentsJoin(segs: seq<Command>)
    requires |segs| >= 1 && Unmarked(segs)
    ensures Segments(Join(segs)) == segs
    decreases |segs|
  {
    var n := |segs|;
    if n == 1 {
      SegmentsOfUnmarked(segs[0]);
    } else {
      var init := segs[..n - 1];
      UnmarkedInit(segs);
      SegmentsJoin(init);
      SegmentsAfterMarker(Join(init), segs[n - 1]);
      assert segs == init + [segs[n - 1]];
    }
  }

  /** A `&` followed by tokens free of `&` adds exactly those tokens as a new last segment. */
  lemma {:induction false} SegmentsAfterMarker(w: Command, v: Command)
    requires ParallelMarker !in v
    ensures Segments(w + [ParallelMarker] + v) == Segments(w) + [v]
    decreases |v|
  {
    if |v| == 0 {
      assert w + [ParallelMarker] + v == w + [ParallelMarker];
      SegmentsSnoc(w, ParallelMarker);
    } else {
      var v' := v[..|v| - 1];
      var x := v[|v| - 1];
      assert ParallelMarker !in v' by {
        assert forall k :: 0 <= k < |v'| ==> v'[k] == v[k];
      }
      SegmentsAfterMarker(w, v');
      var u := w + [ParallelMarker] + v';
      assert w + [ParallelMarker] + v == u + [x] by {
        assert v == v' + [x];
      }
      SegmentsSnoc(u, x);
      var S := Segments(u);
      assert S[..|S| - 1] == Segments(w);
      assert S[|S| - 1] + [x] == v;
    }
  }

  /** One more token of the scan: `&` opens a new segment, any other token extends the last one. */
  lemma SegmentsStep(t: Command, i: nat)
    requires i < |t|
    ensures var s := Segments(t[..i]);
      Segments(t[..i + 1]) ==
        if t[i] == ParallelMarker then s + [[]] else s[..|s| - 1] + [s[|s| - 1] + [t[i]]]
  {
    assert t[..i + 1][..i] == t[..i];
  }

  /** The line with one trailing `&` removed, if it has one. */
  function Trim(t: Command): Command
  {
    if |t| > 0 && t[|t| - 1] == ParallelMarker then t[..|t| - 1] else t
  }

  /** The commands of a parallel group: `children` run, in order, each in a forked
      child; `parent` is handed back to run in the shell's own process. */
  datatype Group = Group(children: seq<Command>, parent: Command)

  /** Splits a line into its parallel group. */
  function Split(t: Command): (r: Group)
    ensures Join(r.children + [r.parent]) == Trim(t)
    ensures Unmarked(r.children + [r.parent])
    ensures |r.children| == Occurrences(Trim(t), ParallelMarker)
  {
    var s := Segments(Trim(t));
    SegmentsPartition(Trim(t));
    assert s == s[..|s| - 1] + [s[|s| - 1]];
    Group(s[..|s| - 1], s[|s| - 1])
  }

  /** Splitting undoes joining: a group whose commands hold no `&` and whose last
      command is not empty is split back into itself. */
  lemma SplitJoin(children: seq<Command>, parent: Command)
    requires Unmarked(children + [parent]) && |parent| > 0
    ensures Split(Join(children + [parent])) == Group(children, parent)
  {
    var segs := children + [parent];
    var t := Join(segs);
    assert segs[|segs| - 1] == parent;
    assert Trim(t) == t by {
      UnmarkedInit(segs);
      if |segs| == 1 {
        assert t == parent;
      } else {
        assert t == Join(segs[..|segs| - 1]) + [ParallelMarker] + parent;
      }
      assert t[|t| - 1] == parent[|parent| - 1];
    }
    SegmentsJoin(segs);
    assert segs[..|segs| - 1] == children;
  }

  /** hfsh2's left-to-right scan: tokens accumulate into the current command,
      each `&` closes it as the next child command, the end of the line closes the
      parent command. */
  method Scan(toks: Command) returns (children: seq<Command>, parent: Command)
    ensures Join(children + [parent]) == Trim(toks)
    ensures Unmarked(children + [parent])
    ensures |children| == Occurrences(Trim(toks), ParallelMarker)
    ensures Group(children, parent) == Split(toks)
  {
    var size := |toks|;
    if size > 0 && toks[size - 1] == ParallelMarker {
      size := size - 1;
    }
    assert toks[..size] == Trim(toks);
    children := [];
    var current: Command := [];
    var i := 0;
    while i < size
      invariant 0 <= i <= size
      invariant children + [current] == Segments(toks[..i])
    {
      SegmentsStep(toks, i);
      if toks[i] == ParallelMarker {
        children := children + [current];
        current := [];
      } else {
        current := current + [toks[i]];
      }
      i := i + 1;
    }
    parent := current;
    assert children + [parent] == Segments(Trim(toks));
    ghost var s := Segments(Trim(toks));
    assert s[..|s| - 1] == children;
    assert s[|s| - 1] == parent;
    assert Split(toks) == Group(children, parent);
  }
}

=== FILE: redirection.dfy ===
/** Syntax of output redirection: `cmd args > file` binds standard output to
    `file`, `cmd args 2 > file` binds standard error. Parsing is pure; the
    descriptor swap it leads to is data (see the Engine module). */
module Redirection {
  import opened Wrappers
  import opened Tokens

  datatype Stream = Stdout | Stderr

  /** Which stream is rebound, and to which file. */
  datatype Target = Target(stream: Stream, file: string)

  /** The outcome of validating a token sequence: either the generic error, or the
      redirection it asks for (none when it has no `>`) and the command left to run. */
  datatype Request = Malformed | Parsed(target: Option<Target>, command: Command)

  /** Position of the first `>` in `t`. */
  function FirstMarker(t: seq<string>): (r: Option<nat>)
    ensures r.None? <==> RedirectMarker !in t
    ensures r.Some? ==> r.value < |t| && t[r.value] == RedirectMarker && RedirectMarker !in t[..r.value]
  {
    if |t| == 0 then None
    else if t[0] == RedirectMarker then Some(0)
    else match FirstMarker(t[1..])
      case None => None
      case Some(i) =>
        assert t[..i + 1] == [t[0]] + t[1..][..i];
        Some(i + 1)
  }

  /** Validates the redirection syntax of a non-empty command line. It is malformed
      when it starts with `>`, or when the first `>` is not followed by exactly one token. */
  function Parse(toks: Command): (r: Request)
    requires |toks| > 0
    // the three error cases
    ensures r.Malformed? <==>
      || toks[0] == RedirectMarker
      || exists i :: 0 <= i < |toks| && toks[i] == RedirectMarker && RedirectMarker !in toks[..i]
                     && (i + 1 == |toks| || i + 2 < |toks|)
    // no marker: nothing to redirect, the command is left as it was
    ensures r.Parsed? && r.target.None? <==> RedirectMarker !in toks
    ensures r.Parsed? && r.target.None? ==> r.command == toks
    // a marker: the file is the one token after it, the stream is chosen by the token before it
    ensures r.Parsed? && r.target.Some? ==>
      && |toks| >= 3
      && toks[|toks| - 2] == RedirectMarker
      && RedirectMarker !in toks[..|toks| - 2]
      && r.target.value.file == toks[|toks| - 1]
      && (r.target.value.stream == Stderr <==> toks[|toks| - 3] == StderrDigit)
      && (r.target.value.stream == Stderr ==> r.command == toks[..|toks| - 3])
      && (r.target.value.stream == Stdout ==> r.command == toks[..|toks| - 2])
  {
    if toks[0] == RedirectMarker then Malformed
    else match FirstMarker(toks)
      case None => Parsed(None, toks)
      case Some(i) =>
        if i + 1 == |toks| || i + 2 < |toks| then Malformed
        else if toks[i - 1] == StderrDigit then Parsed(Some(Target(Stderr, toks[i + 1])), toks[..i - 1])
        else Parsed(Some(Target(Stdout, toks[i + 1])), toks[..i])
  }

  /** The token sequence that asks for redirecting `command` to `target`. */
  function Render(target: Target, command: Command): Command
  {
    command + (if target.stream == Stderr then [StderrDigit] else []) + [RedirectMarker, target.file]
  }

  /** Parsing a rendered redirection gives it back. A stdout redirection needs a
      command whose last word is not `2`, or the `2` would be read as the stream. */
  lemma ParseRender(target: Target, command: Command)
    requires RedirectMarker !in command
    requires target.stream == Stdout ==> |command| > 0 && command[|command| - 1] != StderrDigit
    ensures Parse(Render(target, command)) == Parsed(Some(target), command)
  {
    var t := Render(target, command);
    var n := |t|;
    assert t[n - 2] == RedirectMarker;
    if target.stream == Stderr {
      assert t[..n - 2] == command + [StderrDigit];
      assert t[..n - 3] == command;
    } else {
      assert t[..n - 2] == command;
      assert t[0] == command[0];
    }
  }

  /** Every successfully parsed redirection is the rendering of its result. */
  lemma RenderParse(toks: Command)
    requires |toks| > 0 && Parse(toks).Parsed? && Parse(toks).target.Some?
    ensures Render(Parse(toks).target.value, Parse(toks).command) == toks
  {
    var r := Parse(toks);
    var n := |toks|;
    var t := r.target.value;
    if t.stream == Stderr {
      assert r.command == toks[..n - 3] && toks[n - 3] == StderrDigit;
      assert Render(t, r.command) == toks[..n - 3] + [StderrDigit] + [RedirectMarker, toks[n - 1]];
      assert toks == toks[..n - 3] + [toks[n - 3]] + [toks[n - 2], toks[n - 1]];
    } else {
      assert r.command == toks[..n - 2];
      assert Render(t, r.command) == toks[..n - 2] + [RedirectMarker, toks[n - 1]];
      assert toks == toks[..n - 2] + [toks[n - 2], toks[n - 1]];
    }
  }
}

=== FILE: search_path.dfy ===
/** The ordered list of directories searched for external programs, and
    first-match resolution of a program name against it. Whether a file is
    executable is the operating system's business: it is a parameter here. */
module SearchPath {
  import opened Wrappers
  import opened Tokens

  /** The search path the shell starts with. */
  const DefaultPath: seq<string> := ["/bin"]

  /** The file tried for program `name` in directory `dir`. */
  function Candidate(dir: string, name: string): string
  {
    dir + "/" + name
  }

  /** No directory of `dirs` holds an executable `name`. */
  ghost predicate NoneExecutable(dirs: seq<string>, name: string, isExecutable: string -> bool)
  {
    forall i :: 0 <= i < |dirs| ==> !isExecutable(Candidate(dirs[i], name))
  }

  /** Directory `i` is the first one, in search order, holding an executable `name`. */
  ghost predicate FirstMatchAt(dirs: seq<string>, name: string, isExecutable: string -> bool, i: int)
  {
    && 0 <= i < |dirs|
    && isExecutable(Candidate(dirs[i], name))
    && NoneExecutable(dirs[..i], name, isExecutable)
  }

  /** Resolves `name` to the candidate of the first directory whose candidate is executable. */
  function Resolve(dirs: seq<string>, name: string, isExecutable: string -> bool): (r: Option<string>)
    ensures r.None? <==> NoneExecutable(dirs, name, isExecutable)
    ensures r.Some? ==>
      exists i :: FirstMatchAt(dirs, name, isExecutable, i) && r.value == Candidate(dirs[i], name)
    decreases |dirs|
  {
    if |dirs| == 0 then None
    else if isExecutable(Candidate(dirs[0], name)) then
      assert FirstMatchAt(dirs, name, isExecutable, 0);
      Some(Candidate(dirs[0], name))
    else
      var rest := Resolve(dirs[1..], name, isExecutable);
      ShiftMatch(dirs, name, isExecutable);
      rest
  }

  /** Directory matches of `dirs[1..]` are those of `dirs` shifted by one, when `dirs[0]` does not match. */
  lemma ShiftMatch(dirs: seq<string>, name: string, isExecutable: string -> bool)
    requires |dirs| > 0 && !isExecutable(Candidate(dirs[0], name))
    ensures NoneExecutable(dirs, name, isExecutable) <==> NoneExecutable(dirs[1..], name, isExecutable)
    ensures forall i :: FirstMatchAt(dirs[1..], name, isExecutable, i) ==> FirstMatchAt(dirs, name, isExecutable, i + 1)
  {
    forall i | FirstMatchAt(dirs[1..], name, isExecutable, i)
      ensures FirstMatchAt(dirs, name, isExecutable, i + 1)
    {
      assert dirs[..i + 1] == [dirs[0]] + dirs[1..][..i];
    }
    if NoneExecutable(dirs[1..], name, isExecutable) {
      forall j | 0 <= j < |dirs|
        ensures !isExecutable(Candidate(dirs[j], name))
      {
        if j > 0 {
          assert dirs[j] == dirs[1..][j - 1];
        }
      }
    }
  }

  /** At most one directory is the first match. */
  lemma FirstMatchUnique(dirs: seq<string>, name: string, isExecutable: string -> bool, i: int, j: int)
    requires FirstMatchAt(dirs, name, isExecutable, i) && FirstMatchAt(dirs, name, isExecutable, j)
    ensures i == j
  {
    assert forall k :: 0 <= k < j ==> dirs[..j][k] == dirs[k];
    assert forall k :: 0 <= k < i ==> dirs[..i][k] == dirs[k];
  }

  /** The child's search loop: try each directory in order, stop at the first executable candidate. */
  method Search(dirs: seq<string>, name: string, isExecutable: string -> bool) returns (r: Option<string>)
    ensures r.None? <==> NoneExecutable(dirs, name, isExecutable)
    ensures r.Some? ==>
      exists i :: FirstMatchAt(dirs, name, isExecutable, i) && r.value == Candidate(dirs[i], name)
    ensures r == Resolve(dirs, name, isExecutable)
  {
    var i := 0;
    while i < |dirs|
      invariant 0 <= i <= |dirs|
      invariant NoneExecutable(dirs[..i], name, isExecutable)
    {
      var candidate := Candidate(dirs[i], name);
      if isExecutable(candidate) {
        assert FirstMatchAt(dirs, name, isExecutable, i);
        ghost var expected := Resolve(dirs, name, isExecutable);
        ghost var j :| FirstMatchAt(dirs, name, isExecutable, j) && expected.value == Candidate(dirs[j], name);
        FirstMatchUnique(dirs, name, isExecutable, i, j);
        return Some(candidate);
      }
      assert dirs[..i + 1] == dirs[..i] + [dirs[i]];
      i := i + 1;
    }
    assert dirs[..i] == dirs;
    return None;
  }

  /** Once a directory matches, directories appended after it are never considered. */
  lemma {:induction false} LaterDirectoriesIgnored(dirs: seq<string>, more: seq<string>, name: string, isExecutable: string -> bool)
    requires Resolve(dirs, name, isExecutable).Some?
    ensures Resolve(dirs + more, name, isExecutable) == Resolve(dirs, name, isExecutable)
    decreases |dirs|
  {
    assert (dirs + more)[0] == dirs[0];
    if !isExecutable(Candidate(dirs[0], name)) {
      assert (dirs + more)[1..] == dirs[1..] + more;
      LaterDirectoriesIgnored(dirs[1..], more, name, isExecutable);
    }
  }
}

=== FILE: tokens.dfy ===
/** Tokens of one input line, and the three tokens the shell gives a meaning to.
    The tokenizer itself is outside this model: a line arrives as a sequence of words. */
module Tokens {

  /** A command and its arguments, as the tokenizer delivered them. */
  type Command = seq<string>

  /** Redirects the standard output (or, after `2`, the standard error) of a command. */
  const RedirectMarker: string := ">"

  /** Separates the commands of a parallel group. */
  const ParallelMarker: string := "&"

  /** Placed just before `>`, selects the standard error stream. */
  const StderrDigit: string := "2"

  /** Number of occurrences of `x` in `t`, counted from the left. */
  function Occurrences(t: seq<string>, x: string): nat
  {
    if |t| == 0 then 0
    else Occurrences(t[..|t| - 1], x) + (if t[|t| - 1] == x then 1 else 0)
  }

  /** A token occurs a positive number of times exactly when it is in the sequence. */
  lemma {:induction false} OccurrencesPositive(t: seq<string>, x: string)
    ensures Occurrences(t, x) > 0 <==> x in t
    decreases |t|
  {
    if |t| > 0 {
      OccurrencesPositive(t[..|t| - 1], x);
      assert t == t[..|t| - 1] + [t[|t| - 1]];
    }
  }
}

=== FILE: wrappers.dfy ===
/** Generic result types shared by the modules of the model. */
module Wrappers {

  /** A value that may be absent: a lookup that found nothing, a search that failed. */
  datatype Option<+T> = None | Some(value: T)
}
